=== FILE: README.md ===
# Quorum transaction state transition, modelled in Dafny

This project models the transaction state-transition engine of a Quorum
(go-ethereum derived) node, `core/state_transition.go`: how one message,
public or private, is applied to the world state while consuming gas from the
block gas pool.

- `uint64.dfy` (`Uint64`): Go's `uint64` and `byte`, the wrap-around, and the
  meaning of the `(MaxUint64 - gas) / rate < n` overflow guard.
- `params.dfy` (`Params`): the five gas prices used by the intrinsic-gas rule,
  with their Yellow Paper (Appendix G) and EIP-2028 values.
- `errors.dfy` (`Errors`): the error values, `Option` and `Result`.
- `world.dfy` (`World`): the part of the state store the engine uses:
  balances, nonces, the refund counter. Unwritten accounts read as zero.
- `gas_pool.dfy` (`GasPool`): the block gas pool as a counter.
- `intrinsic_gas.dfy` (`Intrinsic`): `IntrinsicGas`, plus a byte-by-byte
  reference price that it is proved equal to.
- `state_transition.dfy` (`StateTransition`): the message, the per-message
  transition record (`gas`, `initialGas`, state, pool), and the primitives
  `useGas`, `buyGas`, `preCheck`, `refundGas` and `gasUsed`.
- `engine.dfy` (`Engine`): `TransitionDb` as a pure function. `Intake` covers
  the pre-check, the private prologue and intrinsic gas. `Execute` and `Settle`
  cover execution, error classification, privacy verification and settlement.
  The bytecode interpreter (`evm`), the payload service (`receive`) and the
  privacy-metadata handler (`prepare`, `verify`) are passed in as `Oracles`.
- `engine_proofs.dfy` (`EngineProofs`): properties of the whole transition.
- `scenarios.dfy` (`Scenarios`): worked examples.

Modelling decisions:

- Gas fields, nonces and the refund counter have the type `U64`. Additions
  and subtractions on them wrap modulo 2^64, as in Go (`Wrap`). The lemmas
  show that wrapping never happens while `gas <= initialGas`.
- Balances, prices and values are unbounded naturals, standing for `big.Int`.
- The payload service is called with `st.data` itself. The conversion to a
  fixed-size payload hash is folded into that oracle.
- One `StateDb` value stands for both the public state the engine writes
  (`st.state`, line 133) and the store the interpreter runs on and the
  snapshot is taken of (`evm.StateDB`, line 220). The private nonce bump at
  line 227 is written to the public state, outside that snapshot, so the
  state a failed verification restores is taken right after the bump. A
  verification that exits early therefore undoes execution only: the gas
  purchase and, for a call, the nonce bump survive, and the pool keeps the
  purchased gas.
- The handler's `prepare` is given the received metadata and whether this
  node holds the plaintext (line 234 sets that flag just before the call at
  line 236).
- Post-execution verification is due (`MustVerify`) when a plaintext was
  received, privacy metadata came with it, and privacy enhancements are
  enabled at the block. This definition is an assumption: the handler's own
  source is not part of this model.
- Settlement reads the refund counter from the public state (line 327). For a
  public message that is the state the interpreter returns. A private
  execution runs on the private store and does not write the public state, so
  for a private message the counter is the one from before execution.

Two consequences of the code worth stating directly:

- A private contract creation whose fetch succeeded does not bump the nonce
  in `TransitionDb`, even when this node holds no plaintext (line 226:
  `err != nil || !contractCreation`).
- A transfer with gas limit 21000 at gas price 1 from a sender holding only
  100 stops in `buyGas` (line 168) with "insufficient balance to pay for gas"
  and changes nothing (`Scenarios.UnderfundedTransfer`). With a balance of
  21000 the same transfer uses all 21000 gas (`Scenarios.PlainTransfer`).

## Model

| member | source | states |
|---|---|---|
| Intrinsic.CountNonZero | core/state_transition.go:99-104 | the non-zero count is at most the length; it is 0 exactly when every byte is zero, and equals the length exactly when no byte is zero |
| Intrinsic.IntrinsicGas | core/state_transition.go:88-122 | the only failure is `ErrOutOfGas`; with empty data the result is the contract-creation price exactly when creating under Homestead, otherwise the plain transaction price |
| Intrinsic.DataGasByCount | core/state_transition.go:97-119 | pricing each byte in turn equals the non-zero count at the non-zero rate plus the zero count at the zero rate |
| Intrinsic.IntrinsicGasIsTotalGas | core/state_transition.go:105-121 | the overflow guards fail exactly when base + data price exceeds 2^64 - 1; otherwise the result is exactly that sum, so it never wraps |
| Uint64.FloorDivBelow | core/state_transition.go:110-117 | the guard `(MaxUint64 - gas) / rate < n` holds exactly when `n * rate` exceeds the remaining headroom |
| Intrinsic.CreationSurcharge | core/state_transition.go:90-95 | for the same data, a Homestead creation costs exactly `TxGasContractCreation - TxGas` more than a call |
| Intrinsic.EIP2028NeverDearer | core/state_transition.go:106-109 | whatever is priceable before EIP-2028 is priceable after it, at a price no higher |
| StateTransition.UseGas | core/state_transition.go:157-164 | fails with `ErrOutOfGas` exactly when `gas < amount`; otherwise gas drops by exactly `amount`, nothing else changes, and `gas <= initialGas` is kept |
| StateTransition.BuyGas | core/state_transition.go:166-179 | succeeds exactly when the sender can afford `Gas()·GasPrice()` and the pool holds `Gas()`; a short balance gives `errInsufficientBalanceForGas`, a short pool gives the pool's error; on success the pool drops by `Gas()`, the sender's balance drops by the cost, other balances and nonces stay, `initialGas = Gas()`, and gas starting at 0 becomes `Gas()` |
| StateTransition.PreCheck | core/state_transition.go:181-192 | with nonce checking, chain nonce below the message nonce is `ErrNonceTooHigh` and above it is `ErrNonceTooLow`; equality, or no checking, proceeds to `buyGas` |
| StateTransition.NonceClassification | core/state_transition.go:183-191 | with nonce checking, success implies equal nonces, and each nonce error occurs exactly when the nonces compare that way |
| StateTransition.UncheckedNonceIgnored | core/state_transition.go:183-191 | without nonce checking, changing the nonces changes neither the verdict nor anything the pre-check computes |
| StateTransition.GasUsed | core/state_transition.go:342-344 | while `gas <= initialGas`, gas used plus remaining gas is exactly the gas bought, so the subtraction never underflows |
| StateTransition.Refund | core/state_transition.go:325-329 | the refund is at most half the gas used and at most the refund counter, and equals one of them |
| StateTransition.RefundGas | core/state_transition.go:324-339 | remaining gas grows by exactly the refund and stays within the gas bought; the sender is credited remaining gas × price, the pool gets the remaining gas back, other balances and nonces stay |
| StateTransition.PayCoinbase | core/state_transition.go:316 | the proposer is credited gas used × price, and nothing else changes |
| StateTransition.BuyThenRefundRestores | core/state_transition.go:324-339 | buying gas and then settling with no gas spent restores every balance and the pool |
| StateTransition.SettlementSplitsAllowance | core/state_transition.go:316-339 | settling and paying the proposer hands out exactly the gas bought at the gas price: the sender gets remaining gas plus refund, the proposer the gas used, the pool the sender's share; when proposer and sender coincide, that account gets the whole allowance |
| Engine.TransitionDb | core/state_transition.go:203-322 | a failed pre-check ends the transition with its error and changes no state or pool; for a public message every consensus error comes with no return data, zero gas and `failed` unset |
| Engine.ChargeIntrinsic | core/state_transition.go:243-252 | execution is reached exactly when the intrinsic gas of the on-chain data is computable and affordable; it is then deducted and nothing else changes; otherwise the out-of-gas consensus error ends the transition |
| EngineProofs.ReadyPaidIntrinsic | core/state_transition.go:246-252 | a transition reaching execution bought exactly `Gas()` from the pool and has paid the intrinsic gas of `st.data` out of it, with `gas <= initialGas` |
| EngineProofs.FetchFailureIsInert | core/state_transition.go:218-232 | a failed private fetch bumps the sender's public nonce exactly once, changes nothing else after the purchase, and returns `(nil, 0, false, nil)` |
| EngineProofs.NonceBumpedOnce | core/state_transition.go:223-270 | the state the interpreter sees has the sender's nonce bumped exactly once for a call (private: in the prologue; public: before the call) and not at all for a creation; no other nonce changes |
| EngineProofs.ShortCircuitOutcome | core/state_transition.go:277-282 | a private call with empty data never consults the interpreter, succeeds with zero gas reported and the single nonce bump; from a fresh record the refund is the smaller of half the intrinsic gas and the refund counter, the pool ends down by intrinsic gas less refund, the proposer is paid that difference × price and the sender the rest of the allowance |
| EngineProofs.IntrinsicGasIgnoresPlaintext | core/state_transition.go:234-252 | runs that differ only in the fetched plaintext reach execution with the same transition record (gas, state, pool); when `prepare` answers alike with and without the plaintext, they also agree on whether execution is reached and on any early result |
| EngineProofs.InsufficientBalanceIsConsensusError | core/state_transition.go:286-294 | `ErrInsufficientBalance` from execution is returned as a consensus error with 0 gas; any other execution error marks the transaction failed |
| EngineProofs.PublicVmErrorsAreNonConsensus | core/state_transition.go:286-321 | for a public message, execution errors other than insufficient balance give no consensus error; `failed` is exactly "an execution error occurred" |
| EngineProofs.PrivateReportsZeroGas | core/state_transition.go:318-321 | a private message reports zero gas used on every path |
| EngineProofs.PrivateIgnoresLeftover | core/state_transition.go:311-313 | for a private message, whatever leftover gas the interpreter reports, the outcome is the same: the message keeps its own gas |
| EngineProofs.PrivateSettleMatchesShortCircuit | core/state_transition.go:277-321 | from the same ready record, an executed private call (not failed on balance, not reverted) and the short-circuited call end with the same pool, zero reported gas, and the same credits to proposer and sender |
| EngineProofs.PrivateParticipantsAgree | core/state_transition.go:218-321 | a party (plaintext present) and a non-party (plaintext absent) to the same private call end with the same pool, both report zero gas, and credit the proposer and the sender the same amounts, when `prepare` answers both alike and the execution is neither a balance failure nor reverted |
| EngineProofs.PrivateSettleIgnoresResult | core/state_transition.go:284-321 | two executions of the same private message from the same ready record, neither failed on balance nor reverted, end with the same pool, zero reported gas, and the same credits to proposer and sender, whatever the interpreter returned |
| EngineProofs.PrivateCreationParticipantsAgree | core/state_transition.go:218-321 | a party and a non-party to the same private contract creation both execute it and end with the same pool, both report zero gas, and credit the proposer and the sender the same amounts, when `prepare` answers both alike and neither execution is a balance failure nor reverted |
| EngineProofs.PublicSettlement | core/state_transition.go:311-321 | for a public message, the gas used is the gas spent less a refund equal to the smaller of half the gas spent and the refund counter; pool + gas used = the pool before; the sender keeps unused gas × price and the proposer gets gas used × price, or, when they are the same account, it gets the whole allowance × price |
| EngineProofs.PoolBounded | core/state_transition.go:203-322 | one transition never leaves the pool above where it started and never takes more than `Gas()` from it |
| EngineProofs.VerifyFailureReverts | core/state_transition.go:218-304 | when verification exits early, execution is undone: the state is the one right after the gas purchase plus, for a call, the public nonce bump of line 227, so the sender's nonce moves exactly once; the pool keeps the purchase, and the result is failed with zero gas |
| Scenarios.PlainTransfer | core/state_transition.go:203-322 | an empty-data transfer with limit 21000 at price 1 from a balance of 21000 uses 21000 gas, pays it to the proposer, and moves the nonce from 0 to 1 |
| Scenarios.UnderfundedTransfer | core/state_transition.go:166-170 | the same transfer from a balance of 100 fails with the insufficient-balance-for-gas error and changes nothing |
| Scenarios.CreationCostsMoreThanCall | core/state_transition.go:88-122 | for data `[0, 1]`, a creation and a call are priced at their base cost plus one zero byte plus one non-zero byte |

## Left out

- The bytecode interpreter's `Create` and `Call` are an oracle `evm` that maps a request to returned bytes, leftover gas, an optional error and a new state. Lemmas that need leftover gas ≤ supplied gas assume it (`EvmRespectsGas`).
- `private.P.Receive` and the handler's `newPMH`, `prepare` and `verify` are oracles, because their source is not part of this model. The rollback they trigger is modelled only as restoring the saved state.
- Whether `prepare` answers the same for a party and a non-party is not known without the handler's source. `EngineProofs.PrivateParticipantsAgree` and `EngineProofs.PrivateCreationParticipantsAgree` assume it (`Engine.PrepareIgnoresPayload`), and `EngineProofs.IntrinsicGasIgnoresPlaintext` states its agreement on readiness only under it.
- `mustVerify` is not an oracle. It is fixed to "plaintext received, metadata present, privacy enhancements enabled" (`Engine.MustVerify`). This is an assumption about the handler's source, which is not part of this model.
- Public and private state are not separated. The snapshot of line 220 is therefore modelled as the state right after the public nonce bump of line 227, which the source's revert leaves alone. Settlement of a private message keeps the refund counter from before execution, as the public state does.
- The privacy API forwarders (lines 346-366) and `log.Info` are thin wrappers or logging.
- `NewStateTransition` and `ApplyMessage` are modelled as `NewTransition` and `Engine.ApplyMessage` without contracts of their own.
- `to()` is folded into the call request. In the call branch the recipient is present, so both of the source's choices give the same address.
- `big.Int` arithmetic is modelled as unbounded naturals. A negative price or value is not representable.
- `GasPool.AddGas` is an unbounded addition, because the pool's source is not part of this model.
- The conversion of the data length to `uint64` in `IntrinsicGas` is exact; Go slice lengths cannot reach 2^64.
- A block of several transitions is not modelled. `EngineProofs.PoolBounded` gives the per-message bound that a block loop would sum.
- `params/protocol_params_ala.go` holds configuration constants with no behaviour.
- `cmd/newnodekey/main.go` is key generation and printing.

=== FILE: engine.dfy ===
/** The end-to-end application of one message: pre-check and gas purchase,
    the private-payload prologue, intrinsic gas, execution, error
    classification, privacy verification and gas settlement. The bytecode
    interpreter, the off-chain payload service and the privacy-metadata
    handler are oracles handed in by the caller. */
module Engine {
  import opened Uint64
  import opened Errors
  import opened World
  import opened Intrinsic
  import opened StateTransition

  /** The rules and proposer of the block being built. */
  datatype BlockContext = BlockContext(coinbase: Address, isHomestead: bool, isIstanbul: bool, isQuorum: bool)

  /** Privacy metadata attached to a private payload; opaque here. */
  type Metadata = nat

  /** What the payload service answers when asked for a commitment: an error,
      or the plaintext (absent when this node is not a party) and metadata. */
  datatype Receipt =
    | FetchFailed(err: Error)
    | Fetched(plaintext: Option<seq<Byte>>, metadata: Option<Metadata>)

  /** A request to the bytecode interpreter, with the state it runs against. */
  datatype EvmRequest =
    | Create(sender: Address, input: seq<Byte>, gas: U64, value: nat, state: StateDb)
    | Call(sender: Address, to: Address, input: seq<Byte>, gas: U64, value: nat, state: StateDb)

  /** The interpreter's answer: returned bytes, unspent gas, an execution error
      if any, and the state after execution. */
  datatype EvmResult = EvmResult(ret: seq<Byte>, leftoverGas: U64, vmerr: Option<Error>, state: StateDb)

  /** The privacy handler's answer to `prepare` and `verify`. */
  datatype Verdict = Continue(err: Option<Error>) | ExitEarly(err: Option<Error>)

  /** The privacy-metadata handler. `enhancementsEnabled` says whether privacy
      enhancements are active at this block; `prepare` sees the received
      metadata and whether this node holds the plaintext. */
  datatype PrivacyHandler = PrivacyHandler(
    enhancementsEnabled: bool,
    prepare: (Option<Metadata>, bool) -> Verdict,
    verify: (Option<Metadata>, Option<Error>, StateDb) -> Verdict)

  datatype Oracles = Oracles(
    evm: EvmRequest -> EvmResult,
    receive: seq<Byte> -> Receipt,
    handler: PrivacyHandler)

  /** The interpreter never hands back more gas than it was given. */
  ghost predicate EvmRespectsGas(evm: EvmRequest -> EvmResult) {
    forall req :: evm(req).leftoverGas <= req.gas
  }

  /** The private-path state of a transition: the state a failed verification
      restores, the received metadata and whether this node holds the
      plaintext. */
  datatype PrivateContext = PrivateContext(snapshot: StateDb, metadata: Option<Metadata>, hasPrivatePayload: bool)

  /** The result reported to the caller together with the durable effects. A
      non-`None` `err` is a consensus error; `failed` is a non-consensus
      execution failure. */
  datatype Outcome = Outcome(ret: seq<Byte>, usedGas: U64, failed: bool, err: Option<Error>, state: StateDb, pool: nat)

  /** Where a transition stands after intake: finished early, or ready to
      execute `input` with intrinsic gas already paid. */
  datatype Stage =
    | Finished(outcome: Outcome)
    | Ready(st: Transition, input: seq<Byte>, priv: Option<PrivateContext>)

  predicate IsContractCreation(msg: Message) {
    msg.to.None?
  }

  /** Private handling applies to a message that declares itself private, on a
      chain with private transactions enabled. */
  predicate IsPrivateMessage(msg: Message, ctx: BlockContext) {
    msg.privacy.PrivateCapable? && msg.privacy.isPrivate && ctx.isQuorum
  }

  function Abort(st: Transition, e: Error): Outcome {
    Outcome([], 0, false, Some(e), st.state, st.pool)
  }

  /** The handler's `prepare` answers the same whether or not this node holds
      the plaintext, so that parties and non-parties stop or go on together. */
  predicate PrepareIgnoresPayload(handler: PrivacyHandler, md: Option<Metadata>) {
    handler.prepare(md, true) == handler.prepare(md, false)
  }

  /** Post-execution verification is due when enhancements are on and a
      private payload with metadata was received. */
  predicate MustVerify(pc: PrivateContext, handler: PrivacyHandler) {
    pc.hasPrivatePayload && pc.metadata.Some? && handler.enhancementsEnabled
  }

  function PlaintextOf(receipt: Receipt): seq<Byte>
    requires receipt.Fetched?
  {
    if receipt.plaintext.Some? then receipt.plaintext.value else []
  }

  /** Intrinsic gas, always priced over the on-chain `msg.data`, never over the
      execution input. */
  function ChargeIntrinsic(st: Transition, input: seq<Byte>, priv: Option<PrivateContext>, ctx: BlockContext): (r: Stage)
    ensures r.Ready? <==>
      IntrinsicGas(st.msg.data, IsContractCreation(st.msg), ctx.isHomestead, ctx.isIstanbul).Ok? &&
      IntrinsicGas(st.msg.data, IsContractCreation(st.msg), ctx.isHomestead, ctx.isIstanbul).value <= st.gas
    ensures r.Ready? ==>
      && r.st.gas + IntrinsicGas(st.msg.data, IsContractCreation(st.msg), ctx.isHomestead, ctx.isIstanbul).value == st.gas
      && r.st.(gas := st.gas) == st
      && r.input == input && r.priv == priv
    ensures r.Finished? ==> r.outcome == Abort(st, ErrOutOfGas)
  {
    match IntrinsicGas(st.msg.data, IsContractCreation(st.msg), ctx.isHomestead, ctx.isIstanbul)
    case Err(e) => Finished(Abort(st, e))
    case Ok(gas) =>
      match UseGas(st, gas)
      case Err(e) => Finished(Abort(st, e))
      case Ok(st') => Ready(st', input, priv)
  }

  /** The private prologue, entered after a successful pre-check: snapshot,
      fetch by commitment, bump the public nonce on a failed fetch or a call,
      stop inertly on a failed fetch, otherwise run the handler's `prepare`.
      The snapshot covers the interpreter's store, while the nonce bump is
      written to the public state, outside it; with one state here, the state
      to restore is therefore the one after the bump. */
  function PrivateIntake(bought: Transition, ctx: BlockContext, o: Oracles): Stage {
    var receipt := o.receive(bought.msg.data);
    var st := if receipt.FetchFailed? || !IsContractCreation(bought.msg)
              then bought.(state := BumpNonce(bought.state, bought.msg.from))
              else bought;
    if receipt.FetchFailed? then
      Finished(Outcome([], 0, false, None, st.state, st.pool))
    else
      var hasPayload := receipt.plaintext.Some?;
      match o.handler.prepare(receipt.metadata, hasPayload)
      case ExitEarly(err) => Finished(Outcome([], 0, true, err, st.state, st.pool))
      case Continue(_) =>
        var pc := PrivateContext(st.state, receipt.metadata, hasPayload);
        ChargeIntrinsic(st, PlaintextOf(receipt), Some(pc), ctx)
  }

  /** Everything before execution. */
  function Intake(st: Transition, ctx: BlockContext, o: Oracles): Stage {
    match PreCheck(st)
    case Err(e) => Finished(Abort(st, e))
    case Ok(bought) =>
      if IsPrivateMessage(bought.msg, ctx) then PrivateIntake(bought, ctx, o)
      else ChargeIntrinsic(bought, bought.msg.data, None, ctx)
  }

  /** The transition as the caller of a call sees it: a public call bumps the
      sender's nonce here, a private one already did in the prologue. */
  function CallerState(st: Transition, priv: Option<PrivateContext>): Transition {
    if priv.None? then st.(state := BumpNonce(st.state, st.msg.from)) else st
  }

  /** The request handed to the interpreter by a ready transition. */
  function Request(st: Transition, input: seq<Byte>, priv: Option<PrivateContext>): EvmRequest {
    if IsContractCreation(st.msg) then Create(st.msg.from, input, st.gas, st.msg.value, st.state)
    else
      var caller := CallerState(st, priv);
      Call(st.msg.from, st.msg.to.value, input, caller.gas, st.msg.value, caller.state)
  }

  /** A private call whose input is empty does not execute. */
  predicate ShortCircuits(st: Transition, input: seq<Byte>, priv: Option<PrivateContext>) {
    !IsContractCreation(st.msg) && priv.Some? && |input| == 0
  }

  /** Classification, verification and settlement of an executed request. */
  function Settle(st: Transition, res: EvmResult, priv: Option<PrivateContext>, ctx: BlockContext, handler: PrivacyHandler): Outcome {
    if res.vmerr == Some(ErrInsufficientBalance) then
      Outcome([], 0, false, Some(ErrInsufficientBalance), res.state, st.pool)
    else
      var verdict :=
        if priv.Some? && MustVerify(priv.value, handler)
        then handler.verify(priv.value.metadata, res.vmerr, res.state)
        else Continue(None);
      if verdict.ExitEarly? && priv.Some? then
        Outcome([], 0, true, verdict.err, priv.value.snapshot, st.pool)
      else
        // A private execution runs on the private store; the refund counter
        // is read from the public state, which it leaves alone.
        var executed := if priv.None? then st.(gas := res.leftoverGas, state := res.state)
                        else st.(state := res.state.(refund := st.state.refund));
        var paid := PayCoinbase(RefundGas(executed), ctx.coinbase);
        Outcome(res.ret, if priv.Some? then 0 else GasUsed(paid), res.vmerr.Some?, verdict.err, paid.state, paid.pool)
  }

  /** Execution of a ready transition: a creation goes straight to the
      interpreter; a call first bumps a public sender's nonce, then either
      short-circuits (private, empty input: settle and pay the proposer for the
      intrinsic gas) or goes to the interpreter. */
  function Execute(st: Transition, input: seq<Byte>, priv: Option<PrivateContext>, ctx: BlockContext, o: Oracles): Outcome {
    if IsContractCreation(st.msg) then
      Settle(st, o.evm(Request(st, input, priv)), priv, ctx, o.handler)
    else if ShortCircuits(st, input, priv) then
      var paid := PayCoinbase(RefundGas(st), ctx.coinbase);
      Outcome([], 0, false, None, paid.state, paid.pool)
    else
      Settle(CallerState(st, priv), o.evm(Request(st, input, priv)), priv, ctx, o.handler)
  }

  /** Apply `st.msg` to the state: the whole transition. */
  function TransitionDb(st: Transition, ctx: BlockContext, o: Oracles): (r: Outcome)
    ensures PreCheck(st).Err? ==> r == Abort(st, PreCheck(st).error)
    ensures !IsPrivateMessage(st.msg, ctx) && r.err.Some? ==> r.usedGas == 0 && r.ret == [] && !r.failed
  {
    match Intake(st, ctx, o)
    case Finished(out) => out
    case Ready(ready, input, priv) => Execute(ready, input, priv, ctx, o)
  }

  /** A message applied from a fresh transition record. */
  function ApplyMessage(msg: Message, state: StateDb, pool: nat, ctx: BlockContext, o: Oracles): Outcome {
    TransitionDb(NewTransition(msg, state, pool), ctx, o)
  }
}

=== FILE: engine_proofs.dfy ===
/** Properties of the whole transition: nonce handling on the private path,
    intrinsic gas over the commitment, error classification, gas reporting,
    the block gas pool and the privacy revert. */
module EngineProofs {
  import opened Uint64
  import opened Errors
  import opened World
  import opened Intrinsic
  import opened StateTransition
  import opened Engine

  /** A transition record straight from construction. */
  predicate Fresh(st: Transition) {
    st.gas == 0 && st.initialGas == 0
  }

  /** Whatever reaches execution has bought exactly the message's allowance,
      paid the intrinsic gas of the on-chain data out of it, and keeps the gas
      invariant. */
  lemma ReadyPaidIntrinsic(st: Transition, ctx: BlockContext, o: Oracles)
    requires Fresh(st)
    requires Intake(st, ctx, o).Ready?
    ensures var ready := Intake(st, ctx, o).st;
      var ig := IntrinsicGas(st.msg.data, IsContractCreation(st.msg), ctx.isHomestead, ctx.isIstanbul);
      && ig.Ok?
      && ready.msg == st.msg
      && ready.initialGas == st.msg.gas
      && ready.gas + ig.value == st.msg.gas
      && GasInvariant(ready)
      && ready.pool + st.msg.gas == st.pool
  {
    var bought := PreCheck(st).value;
    assert bought == BuyGas(st).value;
    if IsPrivateMessage(bought.msg, ctx) {
      var receipt := o.receive(bought.msg.data);
      assert receipt.Fetched?;
    }
  }

  /** A private message whose payload cannot be fetched bumps the sender's
      public nonce exactly once and ends as an inert success with zero gas;
      the gas purchase stands and no balance or other nonce changes. */
  lemma FetchFailureIsInert(st: Transition, ctx: BlockContext, o: Oracles)
    requires PreCheck(st).Ok?
    requires IsPrivateMessage(st.msg, ctx)
    requires o.receive(st.msg.data).FetchFailed?
    ensures var out := TransitionDb(st, ctx, o); var bought := PreCheck(st).value;
      && out.ret == [] && out.usedGas == 0 && !out.failed && out.err == None
      && GetNonce(out.state, st.msg.from) == Wrap(GetNonce(st.state, st.msg.from) + 1)
      && (forall a :: a != st.msg.from ==> GetNonce(out.state, a) == GetNonce(st.state, a))
      && out.state.balances == bought.state.balances
      && out.pool == bought.pool
  {
    var bought := PreCheck(st).value;
    assert bought == BuyGas(st).value;
    assert bought.msg == st.msg;
  }

  /** The sender's nonce in the state the interpreter sees is bumped exactly
      once for a call (in the private prologue or just before the call, never
      both) and not at all for a creation; no other nonce moves. */
  lemma NonceBumpedOnce(st: Transition, ctx: BlockContext, o: Oracles)
    requires Intake(st, ctx, o).Ready?
    ensures var r := Intake(st, ctx, o);
      var seen := if IsContractCreation(st.msg) then r.st.state else CallerState(r.st, r.priv).state;
      && GetNonce(seen, st.msg.from)
         == (if IsContractCreation(st.msg) then GetNonce(st.state, st.msg.from) else Wrap(GetNonce(st.state, st.msg.from) + 1))
      && (forall a :: a != st.msg.from ==> GetNonce(seen, a) == GetNonce(st.state, a))
      && (!ShortCircuits(r.st, r.input, r.priv) ==> Request(r.st, r.input, r.priv).state == seen)
  {
    var bought := PreCheck(st).value;
    assert bought == BuyGas(st).value;
    if IsPrivateMessage(bought.msg, ctx) {
      assert o.receive(bought.msg.data).Fetched?;
    }
  }

  /** A private call with nothing to execute never consults the interpreter,
      keeps the single nonce bump of the prologue, reports zero gas and
      succeeds. It still settles: from a fresh record, the refund is the
      smaller of half the intrinsic gas and the refund counter, the pool is
      down by the intrinsic gas less that refund, the proposer is paid that
      difference at the gas price and the sender gets the rest of the
      allowance back. */
  lemma ShortCircuitOutcome(st: Transition, ctx: BlockContext, o: Oracles, e: EvmRequest -> EvmResult)
    requires Intake(st, ctx, o).Ready?
    requires var r := Intake(st, ctx, o); ShortCircuits(r.st, r.input, r.priv)
    ensures var out := TransitionDb(st, ctx, o);
      && out == TransitionDb(st, ctx, o.(evm := e))
      && out.ret == [] && out.usedGas == 0 && !out.failed && out.err == None
      && GetNonce(out.state, st.msg.from) == Wrap(GetNonce(st.state, st.msg.from) + 1)
    ensures Fresh(st) ==>
      var r := Intake(st, ctx, o); var out := TransitionDb(st, ctx, o);
      var ig := IntrinsicGas(st.msg.data, IsContractCreation(st.msg), ctx.isHomestead, ctx.isIstanbul);
      var price := st.msg.gasPrice;
      && ig.Ok?
      && var refund := if ig.value / 2 > r.st.state.refund then r.st.state.refund else ig.value / 2;
         && out.pool + ig.value == st.pool + refund
         && (ctx.coinbase != st.msg.from ==>
               && GetBalance(out.state, ctx.coinbase) == GetBalance(r.st.state, ctx.coinbase) + (ig.value - refund) * price
               && GetBalance(out.state, st.msg.from) == GetBalance(r.st.state, st.msg.from) + (st.msg.gas - ig.value + refund) * price)
         && (ctx.coinbase == st.msg.from ==>
               GetBalance(out.state, st.msg.from) == GetBalance(r.st.state, st.msg.from) + st.msg.gas * price)
  {
    NonceBumpedOnce(st, ctx, o);
    var r := Intake(st, ctx, o);
    assert Intake(st, ctx, o.(evm := e)) == r;
    if Fresh(st) {
      ReadyPaidIntrinsic(st, ctx, o);
      SettlementSplitsAllowance(r.st, ctx.coinbase);
      assert TransitionDb(st, ctx, o) == Execute(r.st, r.input, r.priv, ctx, o);
    }
  }

  /** Two runs whose payload service returns different plaintexts for the same
      commitment charge the same intrinsic gas and reach the same transition
      record: gas accounting does not depend on confidential data. Whether
      both reach execution at all is up to the handler's `prepare`, which sees
      whether the plaintext is held; when its answer ignores that, they stop
      or go on together. */
  lemma IntrinsicGasIgnoresPlaintext(st: Transition, ctx: BlockContext, o: Oracles,
                                     p1: Option<seq<Byte>>, p2: Option<seq<Byte>>, md: Option<Metadata>)
    ensures var o1 := o.(receive := (c: seq<Byte>) => Fetched(p1, md));
      var o2 := o.(receive := (c: seq<Byte>) => Fetched(p2, md));
      Intake(st, ctx, o1).Ready? && Intake(st, ctx, o2).Ready? ==> Intake(st, ctx, o1).st == Intake(st, ctx, o2).st
    ensures var o1 := o.(receive := (c: seq<Byte>) => Fetched(p1, md));
      var o2 := o.(receive := (c: seq<Byte>) => Fetched(p2, md));
      PrepareIgnoresPayload(o.handler, md) ==>
        && (Intake(st, ctx, o1).Ready? <==> Intake(st, ctx, o2).Ready?)
        && (Intake(st, ctx, o1).Finished? ==> Intake(st, ctx, o1) == Intake(st, ctx, o2))
  {
  }

  /** Insufficient balance for the value transfer is a consensus error with
      zero gas; it is the only execution error so promoted. */
  lemma InsufficientBalanceIsConsensusError(st: Transition, ctx: BlockContext, o: Oracles)
    requires Intake(st, ctx, o).Ready?
    requires var r := Intake(st, ctx, o); !ShortCircuits(r.st, r.input, r.priv)
    ensures var r := Intake(st, ctx, o); var res := o.evm(Request(r.st, r.input, r.priv));
      var out := TransitionDb(st, ctx, o);
      && (res.vmerr == Some(ErrInsufficientBalance) ==>
            out == Outcome([], 0, false, Some(ErrInsufficientBalance), res.state, r.st.pool))
      && (res.vmerr.Some? && res.vmerr != Some(ErrInsufficientBalance) ==> out.failed)
  {
  }

  /** A public message's execution outcome: any execution error other than
      insufficient balance only marks the transaction failed, and there is no
      consensus error. */
  lemma PublicVmErrorsAreNonConsensus(st: Transition, ctx: BlockContext, o: Oracles)
    requires !IsPrivateMessage(st.msg, ctx)
    requires Intake(st, ctx, o).Ready?
    requires var r := Intake(st, ctx, o); o.evm(Request(r.st, r.input, r.priv)).vmerr != Some(ErrInsufficientBalance)
    ensures var r := Intake(st, ctx, o); var res := o.evm(Request(r.st, r.input, r.priv));
      var out := TransitionDb(st, ctx, o);
      out.err == None && out.failed == res.vmerr.Some? && out.ret == res.ret
  {
    var bought := PreCheck(st).value;
    assert bought == BuyGas(st).value;
  }

  /** A private message keeps its own gas rather than the interpreter's
      leftover: changing the leftover the interpreter reports changes nothing
      in the outcome. */
  lemma PrivateIgnoresLeftover(st: Transition, ctx: BlockContext, o: Oracles, k: U64)
    requires IsPrivateMessage(st.msg, ctx)
    ensures TransitionDb(st, ctx, o)
         == TransitionDb(st, ctx, o.(evm := (req: EvmRequest) => o.evm(req).(leftoverGas := k)))
  {
  }

  /** The settlement of an executed private call against that of the same
      call short-circuited for want of plaintext, from the same ready record. */
  lemma PrivateSettleMatchesShortCircuit(rst: Transition, res: EvmResult, pc: PrivateContext, pcN: PrivateContext,
                                         ctx: BlockContext, o: Oracles)
    requires !IsContractCreation(rst.msg)
    requires res.vmerr != Some(ErrInsufficientBalance)
    requires !(MustVerify(pc, o.handler) && o.handler.verify(pc.metadata, res.vmerr, res.state).ExitEarly?)
    ensures var outP := Settle(rst, res, Some(pc), ctx, o.handler);
      var outN := Execute(rst, [], Some(pcN), ctx, o);
      && outP.pool == outN.pool
      && outP.usedGas == 0 && outN.usedGas == 0
      && (ctx.coinbase != rst.msg.from ==>
            && GetBalance(outP.state, ctx.coinbase) - GetBalance(res.state, ctx.coinbase)
               == GetBalance(outN.state, ctx.coinbase) - GetBalance(rst.state, ctx.coinbase)
            && GetBalance(outP.state, rst.msg.from) - GetBalance(res.state, rst.msg.from)
               == GetBalance(outN.state, rst.msg.from) - GetBalance(rst.state, rst.msg.from))
  {
    var executed := rst.(state := res.state.(refund := rst.state.refund));
    assert Refund(executed) == Refund(rst);
    var refundedP := RefundGas(executed);
    var refundedN := RefundGas(rst);
    assert refundedP.gas == refundedN.gas && refundedP.pool == refundedN.pool;
    assert GasUsed(refundedP) == GasUsed(refundedN);
    assert Settle(rst, res, Some(pc), ctx, o.handler) == Outcome(res.ret, 0, res.vmerr.Some?, Settle(rst, res, Some(pc), ctx, o.handler).err,
      PayCoinbase(refundedP, ctx.coinbase).state, PayCoinbase(refundedP, ctx.coinbase).pool);
  }

  /** A node that is a party to a private call and one that is not (it has no
      plaintext, so its call short-circuits) settle the same gas: the block
      pool ends equal, both report zero gas, and the proposer and the sender
      are credited the same amounts, provided the handler's `prepare` answers
      both alike, and the execution neither fails on balance nor is reverted by
      verification. */
  lemma PrivateParticipantsAgree(st: Transition, ctx: BlockContext, o: Oracles,
                                 plain: seq<Byte>, md: Option<Metadata>)
    requires IsPrivateMessage(st.msg, ctx) && !IsContractCreation(st.msg) && |plain| > 0
    requires PrepareIgnoresPayload(o.handler, md)
    requires var party := o.(receive := (c: seq<Byte>) => Fetched(Some(plain), md));
      var r := Intake(st, ctx, party);
      && r.Ready?
      && var res := party.evm(Request(r.st, r.input, r.priv));
         && res.vmerr != Some(ErrInsufficientBalance)
         && !(MustVerify(r.priv.value, o.handler) && o.handler.verify(md, res.vmerr, res.state).ExitEarly?)
    ensures var party := o.(receive := (c: seq<Byte>) => Fetched(Some(plain), md));
      var outsider := o.(receive := (c: seq<Byte>) => Fetched(None, md));
      var r := Intake(st, ctx, party);
      var res := party.evm(Request(r.st, r.input, r.priv));
      var outP := TransitionDb(st, ctx, party);
      var outN := TransitionDb(st, ctx, outsider);
      && outP.pool == outN.pool
      && outP.usedGas == 0 && outN.usedGas == 0
      && (ctx.coinbase != st.msg.from ==>
            && GetBalance(outP.state, ctx.coinbase) - GetBalance(res.state, ctx.coinbase)
               == GetBalance(outN.state, ctx.coinbase) - GetBalance(r.st.state, ctx.coinbase)
            && GetBalance(outP.state, st.msg.from) - GetBalance(res.state, st.msg.from)
               == GetBalance(outN.state, st.msg.from) - GetBalance(r.st.state, st.msg.from))
  {
    var party := o.(receive := (c: seq<Byte>) => Fetched(Some(plain), md));
    var outsider := o.(receive := (c: seq<Byte>) => Fetched(None, md));
    var r := Intake(st, ctx, party);
    var rN := Intake(st, ctx, outsider);
    assert rN.Ready? && rN.st == r.st && rN.input == [] && rN.priv.Some? && r.priv.Some? && r.input == plain by {
      IntrinsicGasIgnoresPlaintext(st, ctx, o, Some(plain), None, md);
      var bought := PreCheck(st).value;
      assert bought == BuyGas(st).value;
    }
    var res := party.evm(Request(r.st, r.input, r.priv));
    assert r.priv.value.metadata == md;
    PrivateSettleMatchesShortCircuit(r.st, res, r.priv.value, rN.priv.value, ctx, o);
    assert TransitionDb(st, ctx, party) == Settle(r.st, res, r.priv, ctx, o.handler);
    assert TransitionDb(st, ctx, outsider) == Execute(r.st, [], rN.priv, ctx, o);
  }

  /** Two executions of the same private message, from the same ready record,
      settle alike whatever the interpreter returned, as long as neither fails
      on balance nor is reverted: the same pool, zero gas reported, and the
      same credits to the proposer and the sender. */
  lemma PrivateSettleIgnoresResult(rst: Transition, res1: EvmResult, res2: EvmResult,
                                   pc1: PrivateContext, pc2: PrivateContext, ctx: BlockContext, handler: PrivacyHandler)
    requires res1.vmerr != Some(ErrInsufficientBalance) && res2.vmerr != Some(ErrInsufficientBalance)
    requires !(MustVerify(pc1, handler) && handler.verify(pc1.metadata, res1.vmerr, res1.state).ExitEarly?)
    requires !(MustVerify(pc2, handler) && handler.verify(pc2.metadata, res2.vmerr, res2.state).ExitEarly?)
    ensures var out1 := Settle(rst, res1, Some(pc1), ctx, handler);
      var out2 := Settle(rst, res2, Some(pc2), ctx, handler);
      && out1.pool == out2.pool
      && out1.usedGas == 0 && out2.usedGas == 0
      && (ctx.coinbase != rst.msg.from ==>
            && GetBalance(out1.state, ctx.coinbase) - GetBalance(res1.state, ctx.coinbase)
               == GetBalance(out2.state, ctx.coinbase) - GetBalance(res2.state, ctx.coinbase)
            && GetBalance(out1.state, rst.msg.from) - GetBalance(res1.state, rst.msg.from)
               == GetBalance(out2.state, rst.msg.from) - GetBalance(res2.state, rst.msg.from))
  {
    var executed1 := rst.(state := res1.state.(refund := rst.state.refund));
    var executed2 := rst.(state := res2.state.(refund := rst.state.refund));
    assert Refund(executed1) == Refund(executed2);
    assert GasUsed(RefundGas(executed1)) == GasUsed(RefundGas(executed2));
  }

  /** A node that is a party to a private contract creation and one that is
      not both run the creation, on the plaintext and on nothing respectively,
      and settle the same gas: the block pool ends equal, both report zero
      gas, and the proposer and the sender are credited the same amounts,
      provided `prepare` answers both alike and neither execution fails on
      balance nor is reverted by verification. */
  lemma PrivateCreationParticipantsAgree(st: Transition, ctx: BlockContext, o: Oracles,
                                         plain: seq<Byte>, md: Option<Metadata>)
    requires IsPrivateMessage(st.msg, ctx) && IsContractCreation(st.msg)
    requires PrepareIgnoresPayload(o.handler, md)
    requires var party := o.(receive := (c: seq<Byte>) => Fetched(Some(plain), md));
      var outsider := o.(receive := (c: seq<Byte>) => Fetched(None, md));
      var r := Intake(st, ctx, party);
      var rN := Intake(st, ctx, outsider);
      && r.Ready? && rN.Ready?
      && var res := o.evm(Request(r.st, r.input, r.priv));
         && res.vmerr != Some(ErrInsufficientBalance)
         && !(MustVerify(r.priv.value, o.handler) && o.handler.verify(md, res.vmerr, res.state).ExitEarly?)
         && o.evm(Request(rN.st, rN.input, rN.priv)).vmerr != Some(ErrInsufficientBalance)
    ensures var party := o.(receive := (c: seq<Byte>) => Fetched(Some(plain), md));
      var outsider := o.(receive := (c: seq<Byte>) => Fetched(None, md));
      var r := Intake(st, ctx, party);
      var rN := Intake(st, ctx, outsider);
      var res := o.evm(Request(r.st, r.input, r.priv));
      var resN := o.evm(Request(rN.st, rN.input, rN.priv));
      var outP := TransitionDb(st, ctx, party);
      var outN := TransitionDb(st, ctx, outsider);
      && outP.pool == outN.pool
      && outP.usedGas == 0 && outN.usedGas == 0
      && (ctx.coinbase != st.msg.from ==>
            && GetBalance(outP.state, ctx.coinbase) - GetBalance(res.state, ctx.coinbase)
               == GetBalance(outN.state, ctx.coinbase) - GetBalance(resN.state, ctx.coinbase)
            && GetBalance(outP.state, st.msg.from) - GetBalance(res.state, st.msg.from)
               == GetBalance(outN.state, st.msg.from) - GetBalance(resN.state, st.msg.from))
  {
    var party := o.(receive := (c: seq<Byte>) => Fetched(Some(plain), md));
    var outsider := o.(receive := (c: seq<Byte>) => Fetched(None, md));
    var r := Intake(st, ctx, party);
    var rN := Intake(st, ctx, outsider);
    assert rN.st == r.st && r.priv.Some? && rN.priv.Some? && !rN.priv.value.hasPrivatePayload by {
      IntrinsicGasIgnoresPlaintext(st, ctx, o, Some(plain), None, md);
      var bought := PreCheck(st).value;
      assert bought == BuyGas(st).value;
    }
    assert r.priv.value.metadata == md;
    var res := o.evm(Request(r.st, r.input, r.priv));
    var resN := o.evm(Request(rN.st, rN.input, rN.priv));
    PrivateSettleIgnoresResult(r.st, res, resN, r.priv.value, rN.priv.value, ctx, o.handler);
    assert TransitionDb(st, ctx, party) == Settle(r.st, res, r.priv, ctx, o.handler);
    assert TransitionDb(st, ctx, outsider) == Settle(rN.st, resN, rN.priv, ctx, o.handler);
  }

  /** A private message reports zero gas used on every path. */
  lemma PrivateReportsZeroGas(st: Transition, ctx: BlockContext, o: Oracles)
    requires IsPrivateMessage(st.msg, ctx)
    ensures TransitionDb(st, ctx, o).usedGas == 0
  {
    if PreCheck(st).Ok? {
      var bought := PreCheck(st).value;
      assert bought == BuyGas(st).value;
      var stage := Intake(st, ctx, o);
      if stage.Ready? {
        assert stage.priv.Some?;
      }
    }
  }

  /** Settlement of a public message: the reported gas is what was bought
      less the interpreter's leftover and the refund; the refund is at most half
      of what was spent and at most the refund counter; the sender gets back
      exactly the unused gas at the gas price, the proposer gets the used gas,
      and the block pool gets the unused gas back. */
  lemma PublicSettlement(st: Transition, ctx: BlockContext, o: Oracles)
    requires Fresh(st)
    requires EvmRespectsGas(o.evm)
    requires !IsPrivateMessage(st.msg, ctx)
    requires Intake(st, ctx, o).Ready?
    requires var r := Intake(st, ctx, o); o.evm(Request(r.st, r.input, r.priv)).vmerr != Some(ErrInsufficientBalance)
    ensures var r := Intake(st, ctx, o); var res := o.evm(Request(r.st, r.input, r.priv));
      var out := TransitionDb(st, ctx, o);
      var spent := st.msg.gas - res.leftoverGas;
      && res.leftoverGas <= st.msg.gas
      && out.usedGas <= spent
      && spent - out.usedGas <= spent / 2
      && spent - out.usedGas <= res.state.refund
      && spent - out.usedGas == (if spent / 2 > res.state.refund then res.state.refund else spent / 2)
      && out.pool + out.usedGas == st.pool
      && (ctx.coinbase != st.msg.from ==>
            && GetBalance(out.state, st.msg.from) == GetBalance(res.state, st.msg.from) + (st.msg.gas - out.usedGas) * st.msg.gasPrice
            && GetBalance(out.state, ctx.coinbase) == GetBalance(res.state, ctx.coinbase) + out.usedGas * st.msg.gasPrice)
      && (ctx.coinbase == st.msg.from ==>
            GetBalance(out.state, st.msg.from) == GetBalance(res.state, st.msg.from) + st.msg.gas * st.msg.gasPrice)
  {
    ReadyPaidIntrinsic(st, ctx, o);
    var r := Intake(st, ctx, o);
    var req := Request(r.st, r.input, r.priv);
    var res := o.evm(req);
    assert res.leftoverGas <= req.gas;
    var caller := CallerState(r.st, r.priv);
    var executed := caller.(gas := res.leftoverGas, state := res.state);
    assert GasInvariant(executed);
    var refunded := RefundGas(executed);
    var paid := PayCoinbase(refunded, ctx.coinbase);
    SettlementSplitsAllowance(executed, ctx.coinbase);
    assert TransitionDb(st, ctx, o).usedGas == GasUsed(paid);
  }

  /** One transition never gives the block pool more than it took and never
      takes more than the message's gas allowance. */
  lemma PoolBounded(st: Transition, ctx: BlockContext, o: Oracles)
    requires Fresh(st)
    requires EvmRespectsGas(o.evm)
    ensures TransitionDb(st, ctx, o).pool <= st.pool
    ensures st.pool <= TransitionDb(st, ctx, o).pool + st.msg.gas
  {
    var stage := Intake(st, ctx, o);
    if PreCheck(st).Ok? {
      var bought := PreCheck(st).value;
      assert bought == BuyGas(st).value;
      if stage.Ready? {
        ReadyPaidIntrinsic(st, ctx, o);
        var r := stage.st;
        if !IsContractCreation(r.msg) && ShortCircuits(r, stage.input, stage.priv) {
          assert GasInvariant(RefundGas(r));
        } else {
          var caller := if IsContractCreation(r.msg) then r else CallerState(r, stage.priv);
          var req := Request(r, stage.input, stage.priv);
          var res := o.evm(req);
          assert res.leftoverGas <= req.gas;
          var executed := if stage.priv.None? then caller.(gas := res.leftoverGas, state := res.state)
                          else caller.(state := res.state.(refund := caller.state.refund));
          assert GasInvariant(executed);
          assert GasInvariant(RefundGas(executed));
        }
      }
    }
  }

  /** A failed post-execution verification undoes what execution did: the
      state is the one right after the gas purchase with the prologue's public
      nonce bump for a call still in place (so the sender's nonce ends as a
      non-party's would), the pool keeps the purchase, and the transaction is
      reported failed with zero gas. */
  lemma VerifyFailureReverts(st: Transition, ctx: BlockContext, o: Oracles)
    requires Intake(st, ctx, o).Ready?
    requires var r := Intake(st, ctx, o);
      && !ShortCircuits(r.st, r.input, r.priv)
      && r.priv.Some? && MustVerify(r.priv.value, o.handler)
      && var res := o.evm(Request(r.st, r.input, r.priv));
         res.vmerr != Some(ErrInsufficientBalance)
         && o.handler.verify(r.priv.value.metadata, res.vmerr, res.state).ExitEarly?
    ensures var out := TransitionDb(st, ctx, o); var bought := PreCheck(st).value;
      && out.state == (if IsContractCreation(st.msg) then bought.state else BumpNonce(bought.state, st.msg.from))
      && GetNonce(out.state, st.msg.from)
         == (if IsContractCreation(st.msg) then GetNonce(st.state, st.msg.from) else Wrap(GetNonce(st.state, st.msg.from) + 1))
      && out.pool == bought.pool
      && out.failed && out.usedGas == 0 && out.ret == []
  {
    var bought := PreCheck(st).value;
    assert bought == BuyGas(st).value;
    assert IsPrivateMessage(bought.msg, ctx);
    assert o.receive(bought.msg.data).Fetched?;
  }
}

=== FILE: errors.dfy ===
/** Error values of the transition engine and the failure-carrying wrappers
    used to return them. */
module Errors {

  /** The errors the engine creates or passes through. `VmFailure` stands for
      every execution error of the bytecode interpreter other than the two it
      names explicitly; `HandlerFailure` for the explanatory errors of the
      privacy-metadata handler. */
  datatype Error =
    | ErrOutOfGas
    | ErrNonceTooHigh
    | ErrNonceTooLow
    | ErrInsufficientBalanceForGas
    | ErrGasLimitReached
    | ErrInsufficientBalance
    | VmFailure(code: nat)
    | HandlerFailure(code: nat)

  datatype Option<+T> = None | Some(value: T)

  datatype Result<+T> = Ok(value: T) | Err(error: Error)
}

=== FILE: gas_pool.dfy ===
/** The block gas pool: a counter of the gas still available to the
    transactions of one block. */
module GasPool {
  import opened Errors

  /** Reserve `amount` gas; fails, leaving the pool as it was, when less than
      `amount` remains. */
  function SubGas(pool: nat, amount: nat): (r: Result<nat>)
    ensures r.Ok? <==> amount <= pool
    ensures r.Ok? ==> r.value + amount == pool
    ensures r.Err? ==> r.error == ErrGasLimitReached
  {
    if pool < amount then Err(ErrGasLimitReached) else Ok(pool - amount)
  }

  /** Return `amount` gas to the pool. */
  function AddGas(pool: nat, amount: nat): (r: nat)
    ensures r - amount == pool
  {
    pool + amount
  }
}

=== FILE: intrinsic_gas.dfy ===
/** The intrinsic gas of a transaction: the charge due before any execution,
    a function of the transaction data and three rule flags only. */
module Intrinsic {
  import opened Uint64
  import opened Params
  import opened Errors

  /** Number of non-zero bytes in `data`. */
  function CountNonZero(data: seq<Byte>): (nz: nat)
    ensures nz <= |data|
    ensures nz == 0 <==> forall i :: 0 <= i < |data| ==> data[i] == 0
    ensures nz == |data| <==> forall i :: 0 <= i < |data| ==> data[i] != 0
  {
    if |data| == 0 then 0
    else (if data[0] != 0 then 1 else 0) + CountNonZero(data[1..])
  }

  /** Base cost: the contract-creation price applies only to a creation under
      Homestead rules. */
  function BaseGas(contractCreation: bool, isHomestead: bool): nat {
    if contractCreation && isHomestead then TxGasContractCreation else TxGas
  }

  /** Price of one non-zero data byte under the active rules. */
  function NonZeroGas(isEIP2028: bool): nat {
    if isEIP2028 then TxDataNonZeroGasEIP2028 else TxDataNonZeroGasFrontier
  }

  /** Reference definition of the data charge: the byte prices added up one
      byte at a time. */
  function DataGas(data: seq<Byte>, isEIP2028: bool): nat {
    if |data| == 0 then 0
    else (if data[0] != 0 then NonZeroGas(isEIP2028) else TxDataZeroGas) + DataGas(data[1..], isEIP2028)
  }

  /** The mathematical intrinsic cost, without any 64-bit limit. */
  function TotalGas(data: seq<Byte>, contractCreation: bool, isHomestead: bool, isEIP2028: bool): nat {
    BaseGas(contractCreation, isHomestead) + DataGas(data, isEIP2028)
  }

  /** The source's computation: base cost, then the non-zero bytes, then the
      zero bytes, each addition preceded by a check that it fits in a `uint64`;
      a failing check gives `ErrOutOfGas`. */
  function IntrinsicGas(data: seq<Byte>, contractCreation: bool, isHomestead: bool, isEIP2028: bool): (r: Result<U64>)
    ensures r.Err? ==> r.error == ErrOutOfGas
    ensures |data| == 0 ==> r == Ok(if contractCreation && isHomestead then TxGasContractCreation else TxGas)
  {
    var gas := BaseGas(contractCreation, isHomestead);
    if |data| == 0 then Ok(gas)
    else
      var nz := CountNonZero(data);
      var nonZeroGas := NonZeroGas(isEIP2028);
      if (MaxUint64 - gas) / nonZeroGas < nz then Err(ErrOutOfGas)
      else
        FloorDivBelow(MaxUint64 - gas, nonZeroGas, nz);
        var gas1 := gas + nz * nonZeroGas;
        var z := |data| - nz;
        if (MaxUint64 - gas1) / TxDataZeroGas < z then Err(ErrOutOfGas)
        else
          FloorDivBelow(MaxUint64 - gas1, TxDataZeroGas, z);
          Ok(gas1 + z * TxDataZeroGas)
  }

  /** The byte-by-byte data charge is the non-zero count at the non-zero price
      plus the zero count at the zero price. */
  lemma {:induction false} DataGasByCount(data: seq<Byte>, isEIP2028: bool)
    ensures DataGas(data, isEIP2028)
         == CountNonZero(data) * NonZeroGas(isEIP2028) + (|data| - CountNonZero(data)) * TxDataZeroGas
  {
    if |data| > 0 {
      DataGasByCount(data[1..], isEIP2028);
      var nz' := CountNonZero(data[1..]);
      var n' := |data[1..]|;
      if data[0] != 0 {
        calc {
          DataGas(data, isEIP2028);
          NonZeroGas(isEIP2028) + nz' * NonZeroGas(isEIP2028) + (n' - nz') * TxDataZeroGas;
          (nz' + 1) * NonZeroGas(isEIP2028) + (|data| - (nz' + 1)) * TxDataZeroGas;
        }
      } else {
        calc {
          DataGas(data, isEIP2028);
          TxDataZeroGas + nz' * NonZeroGas(isEIP2028) + (n' - nz') * TxDataZeroGas;
          nz' * NonZeroGas(isEIP2028) + (|data| - nz') * TxDataZeroGas;
        }
      }
    }
  }

  /** The overflow guards reject exactly the inputs whose true cost exceeds
      2^64 - 1, and every accepted input is charged its true cost: the result
      never wraps. */
  lemma IntrinsicGasIsTotalGas(data: seq<Byte>, contractCreation: bool, isHomestead: bool, isEIP2028: bool)
    ensures IntrinsicGas(data, contractCreation, isHomestead, isEIP2028).Ok?
        <==> TotalGas(data, contractCreation, isHomestead, isEIP2028) <= MaxUint64
    ensures IntrinsicGas(data, contractCreation, isHomestead, isEIP2028).Ok? ==>
              IntrinsicGas(data, contractCreation, isHomestead, isEIP2028).value
              == TotalGas(data, contractCreation, isHomestead, isEIP2028)
  {
    DataGasByCount(data, isEIP2028);
    var gas := BaseGas(contractCreation, isHomestead);
    if |data| > 0 {
      var nz := CountNonZero(data);
      var rate := NonZeroGas(isEIP2028);
      FloorDivBelow(MaxUint64 - gas, rate, nz);
      if nz * rate <= MaxUint64 - gas {
        var gas1 := gas + nz * rate;
        FloorDivBelow(MaxUint64 - gas1, TxDataZeroGas, |data| - nz);
      }
    }
  }

  /** With the same data and flags, a Homestead contract creation costs exactly
      the difference of the two base prices more than a plain transaction. */
  lemma CreationSurcharge(data: seq<Byte>, isEIP2028: bool)
    requires IntrinsicGas(data, true, true, isEIP2028).Ok?
    ensures IntrinsicGas(data, false, true, isEIP2028).Ok?
    ensures IntrinsicGas(data, true, true, isEIP2028).value
         == IntrinsicGas(data, false, true, isEIP2028).value + (TxGasContractCreation - TxGas)
  {
    IntrinsicGasIsTotalGas(data, true, true, isEIP2028);
    IntrinsicGasIsTotalGas(data, false, true, isEIP2028);
  }

  /** EIP-2028 never makes a transaction dearer: whatever fits before it fits
      after it, at a price no higher. */
  lemma {:induction false} EIP2028NeverDearer(data: seq<Byte>, contractCreation: bool, isHomestead: bool)
    requires IntrinsicGas(data, contractCreation, isHomestead, false).Ok?
    ensures IntrinsicGas(data, contractCreation, isHomestead, true).Ok?
    ensures IntrinsicGas(data, contractCreation, isHomestead, true).value
         <= IntrinsicGas(data, contractCreation, isHomestead, false).value
  {
    DataGasCheaper(data);
    IntrinsicGasIsTotalGas(data, contractCreation, isHomestead, false);
    IntrinsicGasIsTotalGas(data, contractCreation, isHomestead, true);
  }

  lemma {:induction false} DataGasCheaper(data: seq<Byte>)
    ensures DataGas(data, true) <= DataGas(data, false)
  {
    if |data| > 0 {
      DataGasCheaper(data[1..]);
    }
  }
}

=== FILE: params.dfy ===
/** Gas prices of the protocol used by the intrinsic-gas rule. The values are
    those of Appendix G of the Ethereum Yellow Paper (G_transaction,
    G_txcreate + G_transaction, G_txdatazero, G_txdatanonzero) and of EIP-2028
    (the cheaper non-zero calldata byte). */
module Params {

  /** Base cost of every transaction that does not create a contract. */
  const TxGas: nat := 21000
  /** Base cost of a contract-creating transaction once Homestead is active. */
  const TxGasContractCreation: nat := 53000
  /** Cost of each zero byte of transaction data. */
  const TxDataZeroGas: nat := 4
  /** Cost of each non-zero byte of transaction data before EIP-2028. */
  const TxDataNonZeroGasFrontier: nat := 68
  /** Cost of each non-zero byte of transaction data once EIP-2028 is active. */
  const TxDataNonZeroGasEIP2028: nat := 16
}

=== FILE: scenarios.dfy ===
/** Worked single-message examples. */
module Scenarios {
  import opened Uint64
  import opened Params
  import opened Errors
  import opened World
  import opened Intrinsic
  import opened StateTransition
  import opened Engine

  const Sender: Address := 1
  const Recipient: Address := 2
  const Proposer: Address := 3

  /** An interpreter that runs nothing: all gas comes back, no error, no
      state change. */
  function IdleEvm(): EvmRequest -> EvmResult {
    (req: EvmRequest) => EvmResult([], req.gas, None, req.state)
  }

  function QuietOracles(): Oracles {
    Oracles(IdleEvm(), (c: seq<Byte>) => FetchFailed(VmFailure(0)),
            PrivacyHandler(false, (m: Option<Metadata>, hasPayload: bool) => Continue(None),
                           (m: Option<Metadata>, e: Option<Error>, s: StateDb) => Continue(None)))
  }

  const Transfer: Message :=
    Message(Sender, Some(Recipient), 1, 21000, 0, 0, true, [], Public)

  function Funded(balance: nat): StateDb {
    StateDb(map[Sender := balance], map[Sender := 0], 0)
  }

  const TransferContext: BlockContext := BlockContext(Proposer, true, true, true)

  /** After intake the transfer has bought 21000 gas and spent all of it on
      intrinsic gas. */
  lemma PlainTransferIntake()
    ensures Intake(NewTransition(Transfer, Funded(21000), 30000000), TransferContext, QuietOracles())
         == Ready(TransferReady, [], None)
  {
    var st := NewTransition(Transfer, Funded(21000), 30000000);
    assert PreCheck(st) == BuyGas(st);
    assert IntrinsicGas([], false, true, true) == Ok(21000);
  }

  const TransferReady: Transition :=
    Transition(Transfer, 0, 21000, StateDb(map[Sender := 0], map[Sender := 0], 0), 30000000 - 21000)

  /** The expected result of the plain transfer. */
  predicate TransferDone(out: Outcome) {
    && out.err == None && !out.failed
    && out.usedGas == 21000
    && GetBalance(out.state, Sender) == 0
    && GetBalance(out.state, Proposer) == 21000
    && GetNonce(out.state, Sender) == 1
    && out.pool == 30000000 - 21000
  }

  /** Executing the ready transfer: the call runs with no gas left, nothing is
      refunded and the proposer is paid the full 21000. */
  lemma PlainTransferExecute()
    ensures TransferDone(Execute(TransferReady, [], None, TransferContext, QuietOracles()))
  {
    var o := QuietOracles();
    var caller := CallerState(TransferReady, None);
    var res := o.evm(Request(TransferReady, [], None));
    assert res == EvmResult([], 0, None, caller.state);
    assert caller.(gas := res.leftoverGas, state := res.state) == caller;
    var refunded := RefundGas(caller);
    assert refunded.gas == 0 && GasUsed(refunded) == 21000 by {
      assert Refund(caller) == 0;
    }
    var paid := PayCoinbase(refunded, Proposer);
    assert Execute(TransferReady, [], None, TransferContext, o) == Outcome([], 21000, false, None, paid.state, paid.pool);
  }

  /** A plain transfer with empty data, gas limit 21000 at price 1, from a
      sender holding exactly 21000: the whole limit is intrinsic gas, so all of
      it is used and paid to the proposer; the nonce moves from 0 to 1. */
  lemma PlainTransfer()
    ensures TransferDone(ApplyMessage(Transfer, Funded(21000), 30000000, TransferContext, QuietOracles()))
  {
    PlainTransferIntake();
    PlainTransferExecute();
  }

  /** The same transfer from a sender holding only 100 cannot buy its gas:
      it stops at the purchase with nothing changed. */
  lemma UnderfundedTransfer()
    ensures var out := ApplyMessage(Transfer, Funded(100), 30000000, TransferContext, QuietOracles());
      && out.err == Some(ErrInsufficientBalanceForGas)
      && out.usedGas == 0
      && out.state == Funded(100)
      && out.pool == 30000000
  {
  }

  /** Creation under Homestead and a call with the same non-empty data differ
      in intrinsic gas by exactly the creation surcharge. */
  lemma CreationCostsMoreThanCall()
    ensures IntrinsicGas([0, 1], true, true, true) == Ok(TxGasContractCreation + TxDataZeroGas + TxDataNonZeroGasEIP2028)
    ensures IntrinsicGas([0, 1], false, true, true) == Ok(TxGas + TxDataZeroGas + TxDataNonZeroGasEIP2028)
  {
    IntrinsicGasIsTotalGas([0, 1], true, true, true);
    IntrinsicGasIsTotalGas([0, 1], false, true, true);
  }
}

=== FILE: state_transition.dfy ===
/** The per-message state transition record and its gas accounting
    primitives: buying gas, the nonce pre-check, spending gas, refunding it
    and measuring what was used. */
module StateTransition {
  import opened Uint64
  import opened Errors
  import opened World
  import GasPool

  /** Whether a message is private: a public message has no privacy
      capability; a private-capable message says whether it is private. */
  datatype Privacy = Public | PrivateCapable(isPrivate: bool)

  /** A transaction to apply. `to == None` means contract creation. For a
      private message `data` is the on-chain payload commitment. */
  datatype Message = Message(
    from: Address,
    to: Option<Address>,
    gasPrice: nat,
    gas: U64,
    value: nat,
    nonce: U64,
    checkNonce: bool,
    data: seq<Byte>,
    privacy: Privacy)

  /** One message in flight: the gas still available, the gas bought, the
      world state and the block gas pool. */
  datatype Transition = Transition(msg: Message, gas: U64, initialGas: U64, state: StateDb, pool: nat)

  /** A fresh transition: nothing bought yet. */
  function NewTransition(msg: Message, state: StateDb, pool: nat): Transition {
    Transition(msg, 0, 0, state, pool)
  }

  /** What holds of a transition between its steps: available gas never
      exceeds the gas bought. */
  predicate GasInvariant(st: Transition) {
    st.gas <= st.initialGas
  }

  /** Cost in wei of the message's whole gas allowance. */
  function GasCost(msg: Message): nat {
    msg.gas * msg.gasPrice
  }

  /** Spend `amount` gas, or fail with `ErrOutOfGas` (the transition as it was)
      when less is available. */
  function UseGas(st: Transition, amount: U64): (r: Result<Transition>)
    ensures r.Err? <==> st.gas < amount
    ensures r.Err? ==> r.error == ErrOutOfGas
    ensures r.Ok? ==> r.value.gas + amount == st.gas && r.value.(gas := st.gas) == st
    ensures r.Ok? && GasInvariant(st) ==> GasInvariant(r.value)
  {
    if st.gas < amount then Err(ErrOutOfGas)
    else Ok(st.(gas := st.gas - amount))
  }

  /** Buy the message's gas allowance: the sender must afford it, then the
      block pool must have it; on success the pool and the sender's balance
      are debited and the allowance becomes the available and the initial gas. */
  function BuyGas(st: Transition): (r: Result<Transition>)
    ensures r.Ok? <==> GasCost(st.msg) <= GetBalance(st.state, st.msg.from) && st.msg.gas <= st.pool
    ensures GetBalance(st.state, st.msg.from) < GasCost(st.msg) ==> r == Err(ErrInsufficientBalanceForGas)
    ensures GasCost(st.msg) <= GetBalance(st.state, st.msg.from) && st.pool < st.msg.gas ==> r == Err(ErrGasLimitReached)
    ensures r.Ok? ==>
      && r.value.msg == st.msg
      && r.value.pool + st.msg.gas == st.pool
      && GetBalance(r.value.state, st.msg.from) + GasCost(st.msg) == GetBalance(st.state, st.msg.from)
      && (forall a :: a != st.msg.from ==> GetBalance(r.value.state, a) == GetBalance(st.state, a))
      && r.value.state.nonces == st.state.nonces
      && r.value.state.refund == st.state.refund
      && r.value.initialGas == st.msg.gas
      && (st.gas == 0 ==> r.value.gas == st.msg.gas)
  {
    var mgval := GasCost(st.msg);
    if GetBalance(st.state, st.msg.from) < mgval then Err(ErrInsufficientBalanceForGas)
    else
      match GasPool.SubGas(st.pool, st.msg.gas)
      case Err(e) => Err(e)
      case Ok(pool) =>
        Ok(st.(gas := Wrap(st.gas + st.msg.gas),
               initialGas := st.msg.gas,
               state := SubBalance(st.state, st.msg.from, mgval),
               pool := pool))
  }

  /** The nonce pre-check followed by the gas purchase. When the message asks
      for nonce checking only a chain nonce equal to the message nonce gets
      through; otherwise the nonce is not looked at. */
  function PreCheck(st: Transition): (r: Result<Transition>)
    ensures st.msg.checkNonce && GetNonce(st.state, st.msg.from) < st.msg.nonce ==> r == Err(ErrNonceTooHigh)
    ensures st.msg.checkNonce && GetNonce(st.state, st.msg.from) > st.msg.nonce ==> r == Err(ErrNonceTooLow)
    ensures !st.msg.checkNonce || GetNonce(st.state, st.msg.from) == st.msg.nonce ==> r == BuyGas(st)
  {
    if st.msg.checkNonce && GetNonce(st.state, st.msg.from) < st.msg.nonce then Err(ErrNonceTooHigh)
    else if st.msg.checkNonce && GetNonce(st.state, st.msg.from) > st.msg.nonce then Err(ErrNonceTooLow)
    else BuyGas(st)
  }

  /** Gas used so far, with the `uint64` subtraction of the source; under the
      gas invariant it is the exact difference and never wraps. */
  function GasUsed(st: Transition): (r: U64)
    ensures GasInvariant(st) ==> r + st.gas == st.initialGas
  {
    Wrap(st.initialGas - st.gas)
  }

  /** The refund granted at settlement: the refund counter, capped at half the
      gas used. */
  function Refund(st: Transition): (r: U64)
    ensures r <= GasUsed(st) / 2 && r <= st.state.refund
    ensures r == GasUsed(st) / 2 || r == st.state.refund
  {
    var refund := GasUsed(st) / 2;
    if refund > st.state.refund then st.state.refund else refund
  }

  /** Settle the gas: add the refund to the available gas, pay the sender back
      for all available gas at the message's price, and return that gas to the
      block pool. */
  function RefundGas(st: Transition): (r: Transition)
    ensures r.msg == st.msg && r.initialGas == st.initialGas
    ensures GasInvariant(st) ==> r.gas == st.gas + Refund(st) && GasInvariant(r)
    ensures GetBalance(r.state, st.msg.from) == GetBalance(st.state, st.msg.from) + r.gas * st.msg.gasPrice
    ensures forall a :: a != st.msg.from ==> GetBalance(r.state, a) == GetBalance(st.state, a)
    ensures r.state.nonces == st.state.nonces && r.state.refund == st.state.refund
    ensures r.pool == st.pool + r.gas
  {
    var gas := Wrap(st.gas + Refund(st));
    st.(gas := gas,
        state := AddBalance(st.state, st.msg.from, gas * st.msg.gasPrice),
        pool := GasPool.AddGas(st.pool, gas))
  }

  /** After settlement, the block proposer is paid for the gas used. */
  function PayCoinbase(st: Transition, coinbase: Address): (r: Transition)
    ensures r.(state := st.state) == st
    ensures GetBalance(r.state, coinbase) == GetBalance(st.state, coinbase) + GasUsed(st) * st.msg.gasPrice
    ensures forall a :: a != coinbase ==> GetBalance(r.state, a) == GetBalance(st.state, a)
    ensures r.state.nonces == st.state.nonces && r.state.refund == st.state.refund
  {
    st.(state := AddBalance(st.state, coinbase, GasUsed(st) * st.msg.gasPrice))
  }

  /** Buying gas and settling at once, with no gas spent in between, leaves the
      sender's balance and the block pool as they were. */
  lemma BuyThenRefundRestores(st: Transition)
    requires st.gas == 0
    requires BuyGas(st).Ok?
    ensures GetBalance(RefundGas(BuyGas(st).value).state, st.msg.from) == GetBalance(st.state, st.msg.from)
    ensures RefundGas(BuyGas(st).value).pool == st.pool
    ensures RefundGas(BuyGas(st).value).state.balances.Keys >= st.state.balances.Keys
    ensures forall a :: GetBalance(RefundGas(BuyGas(st).value).state, a) == GetBalance(st.state, a)
    ensures RefundGas(BuyGas(st).value).state.nonces == st.state.nonces
  {
    var bought := BuyGas(st).value;
    assert GasUsed(bought) == 0;
    assert Refund(bought) == 0;
  }

  /** Settling and then paying the proposer hands out exactly the gas bought,
      at the message's price: the sender gets back the remaining gas plus the
      refund, the proposer the rest, and the pool gets back the sender's
      share. */
  lemma SettlementSplitsAllowance(st: Transition, coinbase: Address)
    requires GasInvariant(st)
    ensures var paid := PayCoinbase(RefundGas(st), coinbase);
      var refund := Refund(st); var price := st.msg.gasPrice;
      && paid.pool == st.pool + st.gas + refund
      && GasUsed(paid) + st.gas + refund == st.initialGas
      && (coinbase != st.msg.from ==>
            && GetBalance(paid.state, coinbase) == GetBalance(st.state, coinbase) + GasUsed(paid) * price
            && GetBalance(paid.state, st.msg.from) == GetBalance(st.state, st.msg.from) + (st.gas + refund) * price)
      && (coinbase == st.msg.from ==>
            GetBalance(paid.state, coinbase) == GetBalance(st.state, coinbase) + st.initialGas * price)
  {
    var refunded := RefundGas(st);
    var paid := PayCoinbase(refunded, coinbase);
    assert GasUsed(paid) == GasUsed(refunded);
    assert refunded.gas + GasUsed(paid) == st.initialGas;
    SplitPrice(refunded.gas, GasUsed(paid), st.msg.gasPrice);
  }

  lemma SplitPrice(kept: nat, used: nat, price: nat)
    ensures kept * price + used * price == (kept + used) * price
  {
  }

  /** Without nonce checking the sender's nonce has no influence on the
      pre-check: two states that differ only in nonces give the same verdict
      and the same balances and pool. */
  lemma UncheckedNonceIgnored(st: Transition, nonces: map<Address, U64>)
    requires !st.msg.checkNonce
    ensures PreCheck(st).Ok? <==> PreCheck(st.(state := st.state.(nonces := nonces))).Ok?
    ensures PreCheck(st).Err? ==> PreCheck(st.(state := st.state.(nonces := nonces))) == PreCheck(st)
    ensures PreCheck(st).Ok? ==>
      PreCheck(st.(state := st.state.(nonces := nonces))).value
      == PreCheck(st).value.(state := PreCheck(st).value.state.(nonces := nonces))
  {
  }

  /** With nonce checking on, the pre-check reaches the gas purchase exactly
      when the chain nonce equals the message nonce, and every mismatch is
      classified as too high or too low. */
  lemma NonceClassification(st: Transition)
    requires st.msg.checkNonce
    ensures PreCheck(st).Ok? ==> GetNonce(st.state, st.msg.from) == st.msg.nonce
    ensures PreCheck(st).Err? ==>
      PreCheck(st).error in {ErrNonceTooHigh, ErrNonceTooLow, ErrInsufficientBalanceForGas, ErrGasLimitReached}
    ensures PreCheck(st) == Err(ErrNonceTooHigh) <==> GetNonce(st.state, st.msg.from) < st.msg.nonce
    ensures PreCheck(st) == Err(ErrNonceTooLow) <==> GetNonce(st.state, st.msg.from) > st.msg.nonce
  {
  }
}

=== FILE: uint64.dfy ===
/** Unsigned 64-bit integers as Go's `uint64`: values in [0, 2^64 - 1] and
    arithmetic that wraps modulo 2^64. */
module Uint64 {

  const TwoTo64: nat := 0x1_0000_0000_0000_0000
  const MaxUint64: nat := 0xFFFF_FFFF_FFFF_FFFF

  type U64 = x: int | 0 <= x <= 0xFFFF_FFFF_FFFF_FFFF

  /** A Go `byte`. */
  type Byte = b: int | 0 <= b < 256

  /** The value a Go `uint64` expression holds after `+`, `-` or `*`:
      the mathematical result reduced modulo 2^64. */
  function Wrap(x: int): (r: U64)
    ensures 0 <= x <= MaxUint64 ==> r == x
    ensures x < 0 && -x <= MaxUint64 ==> r == x + TwoTo64
  {
    x % TwoTo64
  }

  lemma MulMonotone(x: nat, y: nat, d: nat)
    requires x <= y
    ensures x * d <= y * d
  {
    assert y * d == x * d + (y - x) * d;
  }

  /** The overflow guard `(MaxUint64 - gas) / rate < n` of the source, read as
      a statement about the product it protects: it holds exactly when
      `n * rate` exceeds the headroom. */
  lemma {:induction false} FloorDivBelow(headroom: nat, rate: nat, n: nat)
    requires rate > 0
    ensures headroom / rate < n <==> headroom < n * rate
  {
    var q := headroom / rate;
    var m := headroom % rate;
    assert headroom == q * rate + m && 0 <= m < rate;
    if q < n {
      MulMonotone(q + 1, n, rate);
      assert headroom < (q + 1) * rate;
    } else {
      MulMonotone(n, q, rate);
    }
  }
}

=== FILE: world.dfy ===
/** The part of the world-state store the transition engine reads and writes:
    account balances, account nonces and the refund counter. Accounts that were
    never written read as zero, as in the store. */
module World {
  import opened Uint64

  /** A 20-byte account address. */
  type Address = a: int | 0 <= a < 0x1_0000_0000_0000_0000_0000_0000_0000_0000_0000_0000

  datatype StateDb = StateDb(balances: map<Address, nat>, nonces: map<Address, U64>, refund: U64)

  function GetBalance(s: StateDb, a: Address): nat {
    if a in s.balances then s.balances[a] else 0
  }

  function GetNonce(s: StateDb, a: Address): U64 {
    if a in s.nonces then s.nonces[a] else 0
  }

  function AddBalance(s: StateDb, a: Address, amount: nat): (s': StateDb)
    ensures GetBalance(s', a) == GetBalance(s, a) + amount
    ensures forall b :: b != a ==> GetBalance(s', b) == GetBalance(s, b)
    ensures s'.nonces == s.nonces && s'.refund == s.refund
  {
    s.(balances := s.balances[a := GetBalance(s, a) + amount])
  }

  function SubBalance(s: StateDb, a: Address, amount: nat): (s': StateDb)
    requires amount <= GetBalance(s, a)
    ensures GetBalance(s', a) + amount == GetBalance(s, a)
    ensures forall b :: b != a ==> GetBalance(s', b) == GetBalance(s, b)
    ensures s'.nonces == s.nonces && s'.refund == s.refund
  {
    s.(balances := s.balances[a := GetBalance(s, a) - amount])
  }

  /** `SetNonce(a, GetNonce(a) + 1)` with the `uint64` addition of the source. */
  function BumpNonce(s: StateDb, a: Address): (s': StateDb)
    ensures GetNonce(s', a) == Wrap(GetNonce(s, a) + 1)
    ensures forall b :: b != a ==> GetNonce(s', b) == GetNonce(s, b)
    ensures s'.balances == s.balances && s'.refund == s.refund
  {
    s.(nonces := s.nonces[a := Wrap(GetNonce(s, a) + 1)])
  }
}
